=== FILE: README.md ===
# Trigger jitter simulation — Dafny model

This project models the algorithmic core of a simulation of trigger jitter.
Trigger jitter is the timing error of a digitising instrument's rising-edge
trigger. The program samples a dense sine wave at ten known sub-sample phase
offsets. Each sample is turned into an 8-bit ADC count with added noise. The
program then finds the first rising edge through a trigger level and
estimates the sub-sample crossing from a slope-weighted window. The squared
timing errors become one RMS jitter value per trigger level. Each animation
step handles one level: it records the level's RMS jitter when at least one
trial triggered, then advances the level with wrap-around.

The modules follow the program's data flow:

- `Basics` (`basics.dfy`): an `Option` type, Python's `int()` (`Trunc`),
  `numpy.clip` (`Clip`) and the ADC conversion `AdcCount`.
- `Sampler` (`sampler.dfy`): `sample_wave`. The dense waveform and the noise
  are input sequences of reals, so sampling is a pure function. The noise
  sequence has one value per sampled point, as `numpy.random.normal` draws
  `len(a)` of them.
- `Trigger` (`trigger.dfy`): `trigger_wave_rise`. The edge search is a pure
  reference function (`FirstEdge`) and also the program's loop with its
  trailing `last` variable (`ScanForEdge`). The program loses the trigger by
  raising an indexing exception, which `iterate` catches. Here that is an
  explicit `TriggerResult`: `Ok(idx, corr)`, `EdgeNotFound`,
  `InsufficientMargin` or `ZeroSlope`. A fifth outcome, `EmptySample`, is a
  trial whose sampled waveform was empty.
- `Jitter` (`jitter.dfy`): the trial loop and the table and level update of
  `iterate`, and the averaging of `refresh_jitter_graph`. The sweep state
  (`t_level`, `t_level_to_jitter`) is a value `SweepState`, and `Step`,
  `Iterate` and `Run` are pure functions of it.

Behaviour of the code that is easy to misread:

- Samples are truncated (`numpy.int`), not rounded to nearest.
- The window fails exactly when `idx + 4 >= len(f)`. Otherwise the
  lower-end reads wrap: Python's negative indices count from the end of the
  buffer. The model reads the window through `At`, which wraps in the same
  way. `TriggerWaveRise` proves that with a guard `first_samp >= 3` the
  window never wraps. The program's guard is
  `first_samp = int(nsamples / (repeat * 2))`. In floating point `nsamples` is
  49.99999999999999, so the guard is `int(4.999999999999999) = 4`.
- An exact crossing (`diff == 0`) cannot reach the correction. A returned
  edge has `f[idx] > level`, so `diff < 0` and the correction is never 0.
- An empty sample slice is a lost trial. `numpy.vectorize` without
  `otypes` raises on a size-0 input, and the trial's `try` block catches it.
  With the program's constants the slice is never empty.
- A table entry is written only when at least one trial at that level
  triggered. A later visit to the level with no successful trial keeps the
  old value; it does not clear or overwrite it (`RunPopulated`).
- Out-of-range sweep bounds are not checked by the program. The model states
  the bounds it needs as `ValidConfig`.

## Model

| member | source | states |
|---|---|---|
| `Basics.Trunc` | trigger_tests.py:40 | `int()` truncates toward zero: the result is the integer of the same sign that lies within 1 of the argument and not beyond it |
| `Basics.Clip` | trigger_tests.py:40 | `numpy.clip(x, 0, 255)` lies in the bounds, leaves a value inside them unchanged, and sends a value below or above them to the nearer bound |
| `Basics.AdcCount` | trigger_tests.py:39-40 | a clipped-then-truncated ADC count is an integer in [0, 255]; it is 0 for negative input and otherwise the floor saturated at 255, so it never rounds up |
| `Basics.MeanAtLeast` | trigger_tests.py:92 | a mean `sum(xs) / len(xs)` is at least any lower bound of its values |
| `Basics.MeanAtMost` | trigger_tests.py:92 | a mean `sum(xs) / len(xs)` is at most any upper bound of its values |
| `Sampler.SliceStart` | trigger_tests.py:40 | the start of `a[start::step]` with Python's rules: a negative start counts from the end, and both ends clamp to the length |
| `Sampler.StrideCount` | trigger_tests.py:40 | the slice length is exactly the number of `k` with `start + k*step < len(wave)` |
| `Sampler.SampleFrom` | trigger_tests.py:40 | the stride walk has one point per noise value; point `k` is the ADC count of `wave[pos + k*step]*127 + 127 + noise[k]` |
| `Sampler.SampleStart` | trigger_tests.py:40 | for a non-negative offset the first sampled index is the floor of `offs*sample_step`, clamped to the waveform length |
| `Sampler.SampleWave` | trigger_tests.py:38-40 | sampling fails exactly when the slice is empty; otherwise the sampled waveform has the slice's length, every element is an integer in [0, 255], and element `k` is the clipped, truncated image of the noisy, scaled dense point `start + k*step` |
| `Trigger.EdgeFrom` | trigger_tests.py:47-52 | a returned index is a rising edge at or after `from` with no rising edge before it; `None` means no rising edge from `from` on |
| `Trigger.FirstEdge` | trigger_tests.py:47-52 | a returned index is the first rising edge after the guard; `None` holds exactly when the waveform has no rising edge |
| `Trigger.ScanForEdge` | trigger_tests.py:47-52 | the loop with `last == f[idx-1]` stops exactly at the first rising edge; when none exists it reports failure and leaves `idx` at the last index |
| `Trigger.LocalSlopeClosedForm` | trigger_tests.py:54-68 | with the third- and fourth-order terms at zero weight, the correction slope is `(f[idx+1]-f[idx-1]) + 0.25*(f[idx-1]+f[idx+1]-f[idx-2]-f[idx+2])` |
| `Trigger.LocalSlopeIgnoresOuter` | trigger_tests.py:54-68 | two waveforms that agree on `idx-2 .. idx+2` have the same correction slope, so the outer differences have no effect |
| `Trigger.LevelOutsideRangeNeverTriggers` | trigger_tests.py:47-52 | on samples in [0, 255], a level below 0 or at least 255 has no rising edge, so the detector never returns `Ok` |
| `Trigger.Correction` | trigger_tests.py:58-70 | the correction solves `corr * slope == -1.75 * diff`; when `diff < 0` it is non-zero and has the sign of the slope; when `diff == 0` it is 0 |
| `Trigger.TriggerWaveRise` | trigger_tests.py:45-73 | `EdgeNotFound` exactly when there is no rising edge; `InsufficientMargin` exactly when the first edge has `idx+4 >= len(f)`; `ZeroSlope` exactly when the first edge's slope is 0; `Ok` returns the first edge, with a readable window, a correction satisfying the interpolation equation, non-zero, with the slope's sign, `idx >= 4` when the guard is at least 3, and never for a waveform of length at most `first_samp + 5` |
| `Jitter.ErrorsSq` | trigger_tests.py:109-118 | `errors_sq` has at most one entry per trial, every entry is non-negative, and it is empty exactly when no trial triggered |
| `Jitter.ErrorsSqCount` | trigger_tests.py:109-118 | `errors_sq` has exactly as many entries as there are trials that triggered |
| `Jitter.ErrorsSqSum` | trigger_tests.py:109-118 | the entries of `errors_sq` add up to the total of `(t - corr)^2` over the trials that triggered, a lost trial adding nothing |
| `Jitter.ErrorsSqComplete` | trigger_tests.py:109-118 | `errors_sq` holds `(t - corr)^2` with `t = 0.05*x` for every trial `x` that triggered |
| `Jitter.ErrorsSqSound` | trigger_tests.py:109-118 | every entry of `errors_sq` is `(t - corr)^2` for some trial that triggered |
| `Jitter.MeanSquareNonNegative` | trigger_tests.py:130-131 | when a trial triggered, the mean of the squared errors is non-negative, so its square root exists |
| `Jitter.Filt` | trigger_tests.py:89 | the filtered list has one value per populated level, contains every populated entry, and contains only populated entries |
| `Jitter.FiltSum` | trigger_tests.py:89 | the filtered list adds up to the sum of the table's entries with `None` counted as 0 |
| `Jitter.AverageJitter` | trigger_tests.py:89-93 | there is an average exactly when some level is populated; its sample count is the number of populated levels, and its value is the total of the populated entries divided by that count |
| `Jitter.AverageWithin` | trigger_tests.py:89-93 | the reported average lies within any bounds of the populated entries; `None` entries take no part in it |
| `Jitter.Start` | trigger_tests.py:75-76 | the sweep starts at `min_trig` with a 255-entry table in which no level is populated |
| `Jitter.NextLevel` | trigger_tests.py:135-137 | a level in `[min_trig, max_trig]` advances to a level in the same range |
| `Jitter.LevelAfterClosedForm` | trigger_tests.py:135-137 | after `n` steps the level is `min_trig + (level - min_trig + n) mod (max_trig - min_trig + 1)` |
| `Jitter.SweepCoversRange` | trigger_tests.py:135-137 | after one full period the level returns to its start, and from `min_trig` every level of the range is reached within a period |
| `Jitter.Step` | trigger_tests.py:130-137 | only the current level's entry can change; when some trial triggered it becomes `rmsPs` of the total squared error divided by the number of successful trials, and otherwise the table is unchanged; the populated set grows by exactly that level; the level advances and stays in range |
| `Jitter.Trial` | trigger_tests.py:110-114 | a trial is lost as `EmptySample` exactly when the slice at offset `0.05*x` is empty; on a non-empty sample it is `EdgeNotFound` exactly when the sample has no rising edge, and `Ok` exactly when the sample's first rising edge has four samples after it and a non-zero weighted slope; a successful trial's index is that first edge and its correction solves `corr * slope == 1.75 * (f[idx] - level)` |
| `Jitter.TrialOutsideRangeLost` | trigger_tests.py:110-114 | a trial at a level below 0 or at least 255 never succeeds, since every sampled count lies in [0, 255]; so such a level's table entry is never written |
| `Jitter.Iterate` | trigger_tests.py:109-137 | one step runs the ten trials at offsets `0.05*x`; only the current level's entry can change; when some trial returned `Ok` the entry is overwritten with `rmsPs` of the batch's total squared error divided by its number of successful trials, and otherwise the table is unchanged; the level advances |
| `Jitter.Run` | trigger_tests.py:130-137 | after `n` steps the level is the `n`-th successor of the start, and entries outside `[min_trig, max_trig]` never change |
| `Jitter.RunPopulated` | trigger_tests.py:130-137 | after a run a level is populated exactly when it was populated before or the run visited it with a batch in which some trial triggered |

## Left out

- Waveform synthesis with `numpy.sin` and the modulo-6.2831 phase
  (trigger_tests.py:16-28). This is floating-point numerics. The dense
  waveform is an arbitrary input sequence of reals.
- Gaussian noise from `numpy.random.normal` (trigger_tests.py:34-35). This is
  a library random source. The noise is an input sequence.
- Plotting, animation and console output (trigger_tests.py:79-88, 94-96,
  102-106, 115-116, 118, 120-128, 139-148). These have no algorithmic content.
- Floating point. Reals in the model are exact. The rounding of `x*0.05`,
  of `offs*sample_step` before `int()`, of the division and of the sums is
  not modelled. `sample_step` (`int(1e-9/1e-11)`) and `first_samp` are
  parameters rather than the program's computed constants.
- Jitter.Step: the stored value is `rmsPs(mean)`, where `rmsPs` is a
  parameter standing for `math.sqrt(mean) * 1000`. The model does not
  reason about the square root; `MeanSquareNonNegative` shows only that its
  argument is non-negative.
- Trigger.TriggerWaveRise: a zero correction slope is reported as
  `ZeroSlope` and counted as a lost trial. In the program numpy divides a
  negative `diff` by `+0.0` with only a warning. The correction is then
  `+inf`, and the level's table entry becomes infinite.
- The empirical accuracy of the 1.75 calibration factor on a sinusoid is a
  numerical fact about sine waves, not a property of the code.
- Sampler.SampleWave: requires `step >= 1`. Python raises `ValueError` on a
  slice step of 0, and the program's step is a positive constant. NaN
  samples, which `numpy.clip` passes through and on which `numpy.int` would
  raise, cannot arise with exact reals.
- Jitter.Step: requires `0 <= min_trig <= max_trig < 255`. The program's
  bounds are 25 and 230. A level outside [0, 254] never triggers, because
  samples lie in [0, 255] (`LevelOutsideRangeNeverTriggers`,
  `TrialOutsideRangeLost`), so the program never writes out of range.
  `ValidConfig` is needed only because `Step` takes an arbitrary batch of
  outcomes.
- The number of lost trials per level is not kept. The program only prints
  a message for each lost trial.

=== FILE: basics.dfy ===
/** Shared definitions: an optional value, the two numeric conversions
    the simulation applies to every sample (Python's `int()` on a float and
    `numpy.clip`), sums and means of reals, and facts about `%`. */
module Basics {

  /** A value that may be absent; the jitter table holds `None` for levels
      that have no measurement yet. */
  datatype Option<+T> = None | Some(value: T)

  /** Python's `int()` applied to a float: truncation toward zero. */
  function Trunc(x: real): (r: int)
    ensures 0.0 <= x ==> 0 <= r && r as real <= x < r as real + 1.0
    ensures x < 0.0 ==> r <= 0 && r as real - 1.0 < x <= r as real
  {
    if x >= 0.0 then x.Floor else -((-x).Floor)
  }

  /** `numpy.clip` of one element: `min(max(x, lo), hi)`. */
  function Clip(x: real, lo: real, hi: real): (r: real)
    requires lo <= hi
    ensures lo <= r <= hi
    ensures lo <= x <= hi ==> r == x
    ensures x < lo ==> r == lo
    ensures hi < x ==> r == hi
  {
    if x < lo then lo else if x > hi then hi else x
  }

  /** One ADC conversion as the sampler performs it: clip the analogue value
      to [0, 255] and truncate. Truncating after clipping is the same as
      flooring and then saturating, so the count never rounds up. */
  function AdcCount(v: real): (r: int)
    ensures 0 <= r <= 255
    ensures v < 0.0 ==> r == 0
    ensures 0.0 <= v ==> r == (if v.Floor > 255 then 255 else v.Floor)
  {
    Trunc(Clip(v, 0.0, 255.0))
  }

  /** `sum(xs)`, adding from the front as Python does. */
  function Sum(xs: seq<real>): real
  {
    if |xs| == 0 then 0.0 else Sum(xs[..|xs| - 1]) + xs[|xs| - 1]
  }

  lemma SumAppend(xs: seq<real>, v: real)
    ensures Sum(xs + [v]) == Sum(xs) + v
  {
    assert (xs + [v])[..|xs|] == xs;
  }

  /** Arithmetic mean `sum(xs) / len(xs)`. */
  function Mean(xs: seq<real>): real
    requires |xs| > 0
  {
    Sum(xs) / |xs| as real
  }

  lemma {:induction false} SumAtLeast(xs: seq<real>, lo: real)
    requires forall i :: 0 <= i < |xs| ==> lo <= xs[i]
    ensures |xs| as real * lo <= Sum(xs)
  {
    if |xs| > 0 {
      SumAtLeast(xs[..|xs| - 1], lo);
    }
  }

  lemma {:induction false} SumAtMost(xs: seq<real>, hi: real)
    requires forall i :: 0 <= i < |xs| ==> xs[i] <= hi
    ensures Sum(xs) <= |xs| as real * hi
  {
    if |xs| > 0 {
      SumAtMost(xs[..|xs| - 1], hi);
    }
  }

  /** A mean is at least any lower bound of its values. */
  lemma MeanAtLeast(xs: seq<real>, lo: real)
    requires |xs| > 0
    requires forall i :: 0 <= i < |xs| ==> lo <= xs[i]
    ensures lo <= Mean(xs)
  {
    SumAtLeast(xs, lo);
    assert Mean(xs) * |xs| as real == Sum(xs);
  }

  /** A mean is at most any upper bound of its values. */
  lemma MeanAtMost(xs: seq<real>, hi: real)
    requires |xs| > 0
    requires forall i :: 0 <= i < |xs| ==> xs[i] <= hi
    ensures Mean(xs) <= hi
  {
    SumAtMost(xs, hi);
    assert Mean(xs) * |xs| as real == Sum(xs);
  }

  lemma {:induction false} MulAtLeast(d: int, p: int)
    requires d >= 1 && p > 0
    ensures d * p >= p
    decreases d
  {
    if d > 1 {
      MulAtLeast(d - 1, p);
      assert d * p == (d - 1) * p + p;
    }
  }

  /** The remainder is determined by any quotient-remainder decomposition. */
  lemma ModUnique(x: int, p: int, q: int, r: int)
    requires p > 0 && 0 <= r < p && x == q * p + r
    ensures x % p == r
  {
    var q2, r2 := x / p, x % p;
    assert x == q2 * p + r2;
    var d := q2 - q;
    assert d * p == r - r2 by {
      assert d * p == q2 * p - q * p;
    }
    if d >= 1 {
      MulAtLeast(d, p);
    } else if d <= -1 {
      MulAtLeast(-d, p);
    }
  }

  lemma ModShift(a: int, p: int)
    requires p > 0
    ensures (a + p) % p == a % p
  {
    var q, r := a / p, a % p;
    assert a + p == (q + 1) * p + r by {
      assert (q + 1) * p == q * p + p;
    }
    ModUnique(a + p, p, q + 1, r);
  }
}

=== FILE: jitter.dfy ===
/** The jitter aggregator: for the current trigger level it runs ten
    trials at phase offsets 0, 0.05, ..., 0.45, collects the squared timing
    error of every trial that triggered, records the level's RMS jitter in a
    255-entry table when at least one trial triggered, and advances the
    level with wrap-around. It also averages the populated table entries. */
module Jitter {
  import opened Basics
  import opened Sampler
  import opened Trigger

  /** Entries of the jitter table, one per 8-bit trigger level 0 .. 254. */
  const TableSize: nat := 255

  /** Trials per level. */
  const TrialCount: nat := 10

  /** True phase offset of trial `x`, in fractions of a coarse sample. */
  function TrialOffset(x: nat): real
  {
    x as real * 0.05
  }

  function Square(x: real): (s: real)
    ensures s >= 0.0
  {
    x * x
  }

  /** Some trial of the batch triggered. */
  predicate AnyOk(results: seq<TriggerResult>)
  {
    exists x :: 0 <= x < |results| && results[x].Ok?
  }

  /** The trials that triggered. */
  function OkTrials(results: seq<TriggerResult>): set<int>
  {
    set x | 0 <= x < |results| && results[x].Ok?
  }

  /** Total squared timing error over the trials that triggered, with a
      lost trial adding nothing. */
  function SquaredErrorTotal(results: seq<TriggerResult>): real
  {
    if |results| == 0 then 0.0
    else
      var n := |results| - 1;
      SquaredErrorTotal(results[..n])
        + (if results[n].Ok? then Square(TrialOffset(n) - results[n].corr) else 0.0)
  }

  /** The list `errors_sq` after the trials `results` (trial `x` at offset
      `TrialOffset(x)`): one squared error `(t - corr)^2` appended per trial
      that triggered, in trial order; failed trials contribute nothing. So
      its length is the number of successful trials and its sum is their
      total squared error. */
  function ErrorsSq(results: seq<TriggerResult>): (errs: seq<real>)
    decreases |results|
    ensures |errs| <= |results|
    ensures |errs| == 0 <==> !AnyOk(results)
    ensures forall i :: 0 <= i < |errs| ==> errs[i] >= 0.0
  {
    if |results| == 0 then []
    else
      var n := |results| - 1;
      var prefix := results[..n];
      var before := ErrorsSq(prefix);
      assert forall x :: 0 <= x < n ==> prefix[x] == results[x];
      assert AnyOk(results) <==> AnyOk(prefix) || results[n].Ok?;
      match results[n]
      case Ok(_, corr) => before + [Square(TrialOffset(n) - corr)]
      case _ => before
  }

  /** `errors_sq` has exactly one entry per successful trial. */
  lemma {:induction false} ErrorsSqCount(results: seq<TriggerResult>)
    decreases |results|
    ensures |ErrorsSq(results)| == |OkTrials(results)|
  {
    if |results| == 0 {
      assert OkTrials(results) == {};
    } else {
      var n := |results| - 1;
      var prefix := results[..n];
      ErrorsSqCount(prefix);
      assert forall x :: 0 <= x < n ==> prefix[x] == results[x];
      assert n !in OkTrials(prefix);
      if results[n].Ok? {
        assert OkTrials(results) == OkTrials(prefix) + {n};
      } else {
        assert OkTrials(results) == OkTrials(prefix);
      }
    }
  }

  /** The entries of `errors_sq` add up to the total squared error of the
      successful trials. */
  lemma {:induction false} ErrorsSqSum(results: seq<TriggerResult>)
    decreases |results|
    ensures Sum(ErrorsSq(results)) == SquaredErrorTotal(results)
  {
    if |results| > 0 {
      var n := |results| - 1;
      var prefix := results[..n];
      ErrorsSqSum(prefix);
      var before := ErrorsSq(prefix);
      if results[n].Ok? {
        var v := Square(TrialOffset(n) - results[n].corr);
        assert ErrorsSq(results) == before + [v];
        SumAppend(before, v);
      }
    }
  }

  /** Every successful trial's squared error is in `errors_sq`. */
  lemma {:induction false} ErrorsSqComplete(results: seq<TriggerResult>)
    decreases |results|
    ensures forall x :: 0 <= x < |results| && results[x].Ok? ==>
              Square(TrialOffset(x) - results[x].corr) in ErrorsSq(results)
  {
    if |results| > 0 {
      var n := |results| - 1;
      var prefix := results[..n];
      ErrorsSqComplete(prefix);
      var before := ErrorsSq(prefix);
      assert forall x :: 0 <= x < n ==> prefix[x] == results[x];
      if results[n].Ok? {
        assert ErrorsSq(results) == before + [Square(TrialOffset(n) - results[n].corr)];
      } else {
        assert ErrorsSq(results) == before;
      }
    }
  }

  /** Every entry of `errors_sq` is the squared error of a successful trial. */
  lemma {:induction false} ErrorsSqSound(results: seq<TriggerResult>)
    decreases |results|
    ensures forall e :: e in ErrorsSq(results) ==>
              exists x :: 0 <= x < |results| && results[x].Ok? &&
                          e == Square(TrialOffset(x) - results[x].corr)
  {
    if |results| > 0 {
      var n := |results| - 1;
      var prefix := results[..n];
      ErrorsSqSound(prefix);
      var before := ErrorsSq(prefix);
      var errs := ErrorsSq(results);
      assert forall x :: 0 <= x < n ==> prefix[x] == results[x];
      if results[n].Ok? {
        assert errs == before + [Square(TrialOffset(n) - results[n].corr)];
      } else {
        assert errs == before;
      }
      forall e | e in errs
        ensures exists x :: 0 <= x < |results| && results[x].Ok? &&
                            e == Square(TrialOffset(x) - results[x].corr)
      {
        if e !in before {
          assert results[n].Ok? && e == Square(TrialOffset(n) - results[n].corr);
        }
      }
    }
  }

  /** The mean of the squared errors of a level is never negative. */
  lemma MeanSquareNonNegative(results: seq<TriggerResult>)
    requires AnyOk(results)
    ensures Mean(ErrorsSq(results)) >= 0.0
  {
    MeanAtLeast(ErrorsSq(results), 0.0);
  }

  /** The jitter table: `None` for a level without a measurement. */
  type Table = seq<Option<real>>

  /** The levels that hold a measurement. */
  function Populated(t: Table): set<int>
  {
    set i | 0 <= i < |t| && t[i].Some?
  }

  /** Sum of the table's entries, with `None` counting as 0. */
  function SumSome(t: Table): real
  {
    if |t| == 0 then 0.0
    else SumSome(t[..|t| - 1]) + (if t[|t| - 1].Some? then t[|t| - 1].value else 0.0)
  }

  /** The populated entries in table order (the list `filt`): one value per
      populated level, adding up to the table's total. */
  function Filt(t: Table): (vs: seq<real>)
    ensures |vs| == |Populated(t)|
    ensures forall i :: 0 <= i < |t| && t[i].Some? ==> t[i].value in vs
    ensures forall v :: v in vs ==> exists i :: 0 <= i < |t| && t[i] == Some(v)
  {
    if |t| == 0 then
      assert Populated(t) == {};
      []
    else
      var n := |t| - 1;
      var prefix := t[..n];
      var before := Filt(prefix);
      assert forall i :: 0 <= i < n ==> prefix[i] == t[i];
      assert n !in Populated(prefix);
      assert Populated(t) == Populated(prefix) + (if t[n].Some? then {n} else {});
      if t[n].Some? then before + [t[n].value] else before
  }

  /** The entries of `filt` add up to the table's total. */
  lemma {:induction false} FiltSum(t: Table)
    ensures Sum(Filt(t)) == SumSome(t)
  {
    if |t| > 0 {
      var n := |t| - 1;
      var prefix := t[..n];
      FiltSum(prefix);
      if t[n].Some? {
        assert Filt(t) == Filt(prefix) + [t[n].value];
        SumAppend(Filt(prefix), t[n].value);
      } else {
        assert Filt(t) == Filt(prefix);
      }
    }
  }

  /** The summary line: the average of the populated entries and how many
      there are, or nothing when the table is empty. */
  datatype Summary = Summary(average: real, count: nat)

  function AverageJitter(t: Table): (r: Option<Summary>)
    ensures r.None? <==> Populated(t) == {}
    ensures r.Some? ==> r.value.count == |Populated(t)| > 0
    ensures r.Some? ==> r.value.average == SumSome(t) / |Populated(t)| as real
  {
    var filt := Filt(t);
    FiltSum(t);
    if |filt| > 0 then Some(Summary(Mean(filt), |filt|)) else None
  }

  /** The reported average lies within any bounds of the populated entries;
      empty entries take no part in it. */
  lemma AverageWithin(t: Table, lo: real, hi: real)
    requires forall i :: 0 <= i < |t| && t[i].Some? ==> lo <= t[i].value <= hi
    requires Populated(t) != {}
    ensures AverageJitter(t).Some?
    ensures lo <= AverageJitter(t).value.average <= hi
  {
    var filt := Filt(t);
    forall k | 0 <= k < |filt|
      ensures lo <= filt[k] <= hi
    {
      assert filt[k] in filt;
    }
    MeanAtLeast(filt, lo);
    MeanAtMost(filt, hi);
  }

  /** The sweep bounds `min_trig` and `max_trig`. */
  datatype Config = Config(minTrig: int, maxTrig: int)

  /** Every level of the sweep indexes the table. */
  predicate ValidConfig(c: Config)
  {
    0 <= c.minTrig <= c.maxTrig < TableSize
  }

  /** The aggregator's state: the current level and the jitter table. */
  datatype SweepState = SweepState(level: int, table: Table)

  predicate ValidState(c: Config, s: SweepState)
  {
    c.minTrig <= s.level <= c.maxTrig && |s.table| == TableSize
  }

  /** The initial state: the sweep starts at `min_trig` with an empty table. */
  function Start(c: Config): (s: SweepState)
    requires ValidConfig(c)
    ensures ValidState(c, s)
    ensures s.level == c.minTrig
    ensures Populated(s.table) == {}
  {
    SweepState(c.minTrig, seq(TableSize, _ => None))
  }

  /** The level after `level`: one up, back to `min_trig` past `max_trig`. */
  function NextLevel(c: Config, level: int): (l: int)
    ensures c.minTrig <= level <= c.maxTrig ==> c.minTrig <= l <= c.maxTrig
  {
    if level + 1 > c.maxTrig then c.minTrig else level + 1
  }

  /** The level after `n` further steps. */
  function LevelAfter(c: Config, level: int, n: nat): int
    decreases n
  {
    if n == 0 then level else LevelAfter(c, NextLevel(c, level), n - 1)
  }

  /** The level counter is a modular counter over `[min_trig, max_trig]`. */
  lemma {:induction false} LevelAfterClosedForm(c: Config, level: int, n: nat)
    requires c.minTrig <= level <= c.maxTrig
    decreases n
    ensures LevelAfter(c, level, n) ==
            c.minTrig + (level - c.minTrig + n) % (c.maxTrig - c.minTrig + 1)
  {
    var p := c.maxTrig - c.minTrig + 1;
    if n > 0 {
      var next := NextLevel(c, level);
      LevelAfterClosedForm(c, next, n - 1);
      if level == c.maxTrig {
        ModShift(n - 1, p);
        assert level - c.minTrig + n == (n - 1) + p;
      }
    }
  }

  /** After one full period the sweep is back at its starting level, and
      from `min_trig` every level of the range is reached within a period. */
  lemma SweepCoversRange(c: Config, level: int, target: int)
    requires c.minTrig <= level <= c.maxTrig
    requires c.minTrig <= target <= c.maxTrig
    ensures LevelAfter(c, level, (c.maxTrig - c.minTrig + 1) as nat) == level
    ensures LevelAfter(c, c.minTrig, (target - c.minTrig) as nat) == target
  {
    var p := c.maxTrig - c.minTrig + 1;
    LevelAfterClosedForm(c, level, p as nat);
    ModShift(level - c.minTrig, p);
    ModUnique(level - c.minTrig, p, 0, level - c.minTrig);
    LevelAfterClosedForm(c, c.minTrig, (target - c.minTrig) as nat);
    ModUnique(target - c.minTrig, p, 0, target - c.minTrig);
  }

  /** One update of the aggregator from a batch of trial outcomes: the
      entry of the current level is replaced by `rmsPs(mean(errors_sq))`
      if and only if some trial triggered, no other entry changes, and the
      level advances. `rmsPs` is the conversion `sqrt(m) * 1000`. */
  function Step(c: Config, s: SweepState, results: seq<TriggerResult>, rmsPs: real -> real): (s': SweepState)
    requires ValidConfig(c) && ValidState(c, s)
    ensures ValidState(c, s')
    ensures s'.level == NextLevel(c, s.level)
    ensures forall i :: 0 <= i < TableSize && i != s.level ==> s'.table[i] == s.table[i]
    ensures AnyOk(results) ==>
              |OkTrials(results)| > 0 &&
              s'.table[s.level] == Some(rmsPs(SquaredErrorTotal(results) / |OkTrials(results)| as real))
    ensures !AnyOk(results) ==> s'.table == s.table
    ensures Populated(s'.table) == Populated(s.table) + (if AnyOk(results) then {s.level} else {})
  {
    var errs := ErrorsSq(results);
    ErrorsSqCount(results);
    ErrorsSqSum(results);
    var table := if |errs| > 0 then s.table[s.level := Some(rmsPs(Mean(errs)))] else s.table;
    SweepState(NextLevel(c, s.level), table)
  }

  /** One trial, the body of the `try` block: sample the waveform at offset
      `TrialOffset(x)` with the trial's own noise, then trigger on the
      samples. An empty sample loses the trial. */
  function Trial(wave: seq<real>, step: nat, firstSamp: int, level: int, x: nat, noise: seq<real>): (r: TriggerResult)
    requires step >= 1
    requires |noise| == SampleCount(|wave|, TrialOffset(x), step)
    ensures r.EmptySample? <==> SampleCount(|wave|, TrialOffset(x), step) == 0
    ensures r.Ok? ==>
              var f := SampleWave(wave, TrialOffset(x), step, noise);
              f.Some? && IsFirstEdge(f.value, firstSamp, level, r.idx) &&
              r.idx + 4 < SampleCount(|wave|, TrialOffset(x), step)
    ensures SampleCount(|wave|, TrialOffset(x), step) > 0 ==>
              Reports(SampleWave(wave, TrialOffset(x), step, noise).value, firstSamp, level, r)
  {
    var sampled := SampleWave(wave, TrialOffset(x), step, noise);
    if sampled.None? then EmptySample
    else
      TriggerWaveRise(sampled.value, firstSamp, level)
  }

  /** A level outside the 8-bit range never triggers: every sample lies in
      [0, 255], so none rises above a level of 255 or more, and none lies at
      or below a negative level. Such a level is therefore never written. */
  lemma TrialOutsideRangeLost(wave: seq<real>, step: nat, firstSamp: int, level: int, x: nat, noise: seq<real>)
    requires step >= 1
    requires |noise| == SampleCount(|wave|, TrialOffset(x), step)
    requires level < 0 || level >= 255
    ensures !Trial(wave, step, firstSamp, level, x, noise).Ok?
  {
    var sampled := SampleWave(wave, TrialOffset(x), step, noise);
    if sampled.Some? {
      LevelOutsideRangeNeverTriggers(sampled.value, firstSamp, level);
    }
  }

  /** Outcomes of the ten trials at one level, trial `x` at offset
      `TrialOffset(x)` with noise `noises[x]`. */
  function TrialResults(wave: seq<real>, step: nat, firstSamp: int, level: int,
                        noises: seq<seq<real>>): (rs: seq<TriggerResult>)
    requires step >= 1
    requires |noises| == TrialCount
    requires forall x :: 0 <= x < TrialCount ==> |noises[x]| == SampleCount(|wave|, TrialOffset(x), step)
    ensures |rs| == TrialCount
    ensures forall x :: 0 <= x < TrialCount ==> rs[x] == Trial(wave, step, firstSamp, level, x, noises[x])
  {
    seq(TrialCount, x requires 0 <= x < TrialCount => Trial(wave, step, firstSamp, level, x, noises[x]))
  }

  /** One iteration of the simulation: ten trials at the current level, then
      one update of the aggregator. When a trial triggered, the level's entry
      is overwritten with the RMS of the batch's squared errors; otherwise
      the table is left as it was. */
  function Iterate(c: Config, s: SweepState, wave: seq<real>, step: nat, firstSamp: int,
                   noises: seq<seq<real>>, rmsPs: real -> real): (s': SweepState)
    requires ValidConfig(c) && ValidState(c, s)
    requires step >= 1
    requires |noises| == TrialCount
    requires forall x :: 0 <= x < TrialCount ==> |noises[x]| == SampleCount(|wave|, TrialOffset(x), step)
    ensures ValidState(c, s')
    ensures s'.level == NextLevel(c, s.level)
    ensures forall i :: 0 <= i < TableSize && i != s.level ==> s'.table[i] == s.table[i]
    // The next two follow from the two after them; they state the effect in
    // terms of the individual trials.
    ensures s'.table[s.level] != s.table[s.level] ==>
              exists x :: 0 <= x < TrialCount && Trial(wave, step, firstSamp, s.level, x, noises[x]).Ok?
    ensures (exists x :: 0 <= x < TrialCount && Trial(wave, step, firstSamp, s.level, x, noises[x]).Ok?) ==>
            s'.table[s.level].Some?
    ensures var rs := TrialResults(wave, step, firstSamp, s.level, noises);
            AnyOk(rs) ==>
              |OkTrials(rs)| > 0 &&
              s'.table[s.level] == Some(rmsPs(SquaredErrorTotal(rs) / |OkTrials(rs)| as real))
    ensures !AnyOk(TrialResults(wave, step, firstSamp, s.level, noises)) ==> s'.table == s.table
  {
    var results := TrialResults(wave, step, firstSamp, s.level, noises);
    assert AnyOk(results) <==>
           exists x :: 0 <= x < TrialCount && Trial(wave, step, firstSamp, s.level, x, noises[x]).Ok?;
    Step(c, s, results, rmsPs)
  }

  /** Several iterations, one batch of trial outcomes per iteration. */
  function Run(c: Config, s: SweepState, batches: seq<seq<TriggerResult>>, rmsPs: real -> real): (s': SweepState)
    requires ValidConfig(c) && ValidState(c, s)
    decreases |batches|
    ensures ValidState(c, s')
    ensures s'.level == LevelAfter(c, s.level, |batches|)
    ensures forall i :: 0 <= i < TableSize && !(c.minTrig <= i <= c.maxTrig) ==> s'.table[i] == s.table[i]
  {
    if |batches| == 0 then s
    else Run(c, Step(c, s, batches[0], rmsPs), batches[1..], rmsPs)
  }

  /** After any run, a level holds a measurement exactly when it held one
      before or the run visited it with a batch in which some trial
      triggered. From `Start`, only levels with a successful trial appear,
      and a later visit without success leaves the earlier value in place. */
  lemma {:induction false} RunPopulated(c: Config, s: SweepState, batches: seq<seq<TriggerResult>>,
                                        rmsPs: real -> real, i: int)
    requires ValidConfig(c) && ValidState(c, s)
    decreases |batches|
    ensures i in Populated(Run(c, s, batches, rmsPs).table) <==>
            i in Populated(s.table) ||
            exists k :: 0 <= k < |batches| && LevelAfter(c, s.level, k) == i && AnyOk(batches[k])
  {
    if |batches| > 0 {
      var s1 := Step(c, s, batches[0], rmsPs);
      var rest := batches[1..];
      RunPopulated(c, s1, rest, rmsPs, i);
      assert LevelAfter(c, s.level, 0) == s.level;
      forall k | 0 <= k < |rest|
        ensures LevelAfter(c, s1.level, k) == LevelAfter(c, s.level, k + 1)
        ensures rest[k] == batches[k + 1]
      {
      }
      if i in Populated(Run(c, s, batches, rmsPs).table) {
        if i !in Populated(s.table) && i in Populated(s1.table) {
          assert LevelAfter(c, s.level, 0) == i && AnyOk(batches[0]);
        }
      } else {
        assert i !in Populated(s1.table);
        forall k | 0 <= k < |batches| && LevelAfter(c, s.level, k) == i
          ensures !AnyOk(batches[k])
        {
          if k > 0 {
            assert LevelAfter(c, s1.level, k - 1) == i;
          }
        }
      }
    }
  }
}

=== FILE: sampler.dfy ===
/** The sampler: takes every `step`-th point of a dense waveform from a
    start index derived from the phase offset, scales it to ADC counts,
    adds noise and quantises it. The dense waveform and the noise are inputs,
    so sampling is a pure function. */
module Sampler {
  import opened Basics

  /** Start of a Python slice `a[start::step]` with a positive step: a
      negative start counts from the end, and both ends clamp to the length. */
  function SliceStart(start: int, n: nat): (p: nat)
    ensures p <= n
    ensures 0 <= start <= n ==> p == start
    ensures start > n ==> p == n
    ensures start < 0 && 0 <= start + n ==> p == start + n
    ensures start + n < 0 ==> p == 0
  {
    if start < 0 then (if start + n < 0 then 0 else start + n)
    else if start > n then n
    else start
  }

  /** Index of the `k`-th point of a stride walk. */
  function StrideIndex(pos: nat, step: nat, k: nat): nat
  {
    pos + k * step
  }

  lemma StrideShift(pos: nat, step: nat, k: nat)
    ensures StrideIndex(pos + step, step, k) == StrideIndex(pos, step, k + 1)
  {
    assert (k + 1) * step == k * step + step;
  }

  /** Number of points of the stride walk `pos, pos + step, ...` that lie
      below `n`: exactly the `k` with `pos + k * step < n`. */
  function StrideCount(n: nat, pos: nat, step: nat): (c: nat)
    requires step >= 1
    decreases n - pos
    ensures forall k: nat :: k < c <==> StrideIndex(pos, step, k) < n
  {
    if pos >= n then
      assert forall k: nat :: StrideIndex(pos, step, k) >= pos;
      0
    else
      var rest := StrideCount(n, pos + step, step);
      assert forall k: nat :: k < 1 + rest <==> StrideIndex(pos, step, k) < n by {
        forall k: nat
          ensures k < 1 + rest <==> StrideIndex(pos, step, k) < n
        {
          if k > 0 {
            StrideShift(pos, step, k - 1);
          }
        }
      }
      1 + rest
  }

  /** The stride walk from `pos`, each point scaled by `x * 127 + 127`,
      offset by its own noise value and converted to an ADC count. */
  function SampleFrom(wave: seq<real>, pos: nat, step: nat, noise: seq<real>): (r: seq<int>)
    requires step >= 1
    requires |noise| == StrideCount(|wave|, pos, step)
    decreases |wave| - pos
    ensures |r| == |noise|
    ensures forall k :: 0 <= k < |r| ==>
              StrideIndex(pos, step, k) < |wave| &&
              r[k] == AdcCount(wave[StrideIndex(pos, step, k)] * 127.0 + 127.0 + noise[k])
  {
    if pos >= |wave| then []
    else
      var rest := SampleFrom(wave, pos + step, step, noise[1..]);
      var r := [AdcCount(wave[pos] * 127.0 + 127.0 + noise[0])] + rest;
      assert forall k :: 0 <= k < |r| ==>
               StrideIndex(pos, step, k) < |wave| &&
               r[k] == AdcCount(wave[StrideIndex(pos, step, k)] * 127.0 + 127.0 + noise[k]) by {
        forall k | 0 <= k < |r|
          ensures StrideIndex(pos, step, k) < |wave|
          ensures r[k] == AdcCount(wave[StrideIndex(pos, step, k)] * 127.0 + 127.0 + noise[k])
        {
          if k > 0 {
            StrideShift(pos, step, k - 1);
            assert r[k] == rest[k - 1];
          }
        }
      }
      r
  }

  /** Index of the first sampled point for phase offset `offs`: `int(offs * step)`
      taken as a slice start. For a non-negative offset it is the floor of
      `offs * step`, clamped to the waveform length. */
  function SampleStart(n: nat, offs: real, step: nat): (p: nat)
    ensures p <= n
    ensures 0.0 <= offs ==>
              p == (if (offs * step as real).Floor < n then (offs * step as real).Floor else n)
  {
    SliceStart(Trunc(offs * step as real), n)
  }

  /** Length of the sampled waveform, which is also the number of noise
      values the sampler draws. */
  function SampleCount(n: nat, offs: real, step: nat): nat
    requires step >= 1
  {
    StrideCount(n, SampleStart(n, offs, step), step)
  }

  /** Sampling of a dense waveform at phase offset `offs`: one ADC count per
      coarse interval, each an integer in [0, 255] and each the quantised,
      noisy image of the dense point `start + k * step`. An empty slice is a
      failure: `numpy.vectorize` without `otypes` raises on size-0 input. */
  function SampleWave(wave: seq<real>, offs: real, step: nat, noise: seq<real>): (r: Option<seq<int>>)
    requires step >= 1
    requires |noise| == SampleCount(|wave|, offs, step)
    ensures r.None? <==> SampleCount(|wave|, offs, step) == 0
    ensures r.Some? ==> |r.value| == SampleCount(|wave|, offs, step)
    ensures r.Some? ==> forall k :: 0 <= k < |r.value| ==> 0 <= r.value[k] <= 255
    ensures r.Some? ==>
              var start := SampleStart(|wave|, offs, step);
              forall k :: 0 <= k < |r.value| ==>
                start + k * step < |wave| &&
                r.value[k] == AdcCount(wave[start + k * step] * 127.0 + 127.0 + noise[k])
  {
    var start := SampleStart(|wave|, offs, step);
    var r := SampleFrom(wave, start, step, noise);
    assert forall k :: 0 <= k < |r| ==>
             start + k * step < |wave| &&
             r[k] == AdcCount(wave[start + k * step] * 127.0 + 127.0 + noise[k]) by {
      forall k | 0 <= k < |r|
        ensures start + k * step < |wave|
        ensures r[k] == AdcCount(wave[start + k * step] * 127.0 + 127.0 + noise[k])
      {
        assert StrideIndex(start, step, k) == start + k * step;
      }
    }
    if |r| == 0 then None else Some(r)
  }
}

=== FILE: trigger.dfy ===
/** The trigger detector: finds the first rising edge through a trigger
    level after the pretrigger guard, then estimates the sub-sample position
    of the crossing from a slope-weighted window around it. Trigger loss,
    which the program signals by an indexing exception, is an explicit
    result here. */
module Trigger {
  import opened Basics

  /** Sample `i` is a rising edge: it lies after the guard `firstSamp`, is
      above the level, and its predecessor is at or below it. */
  predicate IsRisingEdge(f: seq<int>, firstSamp: int, level: int, i: int)
  {
    0 < i < |f| && i > firstSamp && f[i] > level && f[i - 1] <= level
  }

  /** Sample `i` is the first rising edge of `f`. */
  predicate IsFirstEdge(f: seq<int>, firstSamp: int, level: int, i: int)
  {
    IsRisingEdge(f, firstSamp, level, i) &&
    forall j :: 0 <= j < i ==> !IsRisingEdge(f, firstSamp, level, j)
  }

  lemma FirstEdgeUnique(f: seq<int>, firstSamp: int, level: int, i: int, j: int)
    requires IsFirstEdge(f, firstSamp, level, i) && IsFirstEdge(f, firstSamp, level, j)
    ensures i == j
  {
  }

  /** The first rising edge at or after index `from`, if there is one. */
  function EdgeFrom(f: seq<int>, firstSamp: int, level: int, from: nat): (r: Option<nat>)
    decreases |f| - from
    ensures r.Some? ==>
              from <= r.value && IsRisingEdge(f, firstSamp, level, r.value) &&
              forall j :: from <= j < r.value ==> !IsRisingEdge(f, firstSamp, level, j)
    ensures r.None? ==> forall j :: from <= j < |f| ==> !IsRisingEdge(f, firstSamp, level, j)
  {
    if from >= |f| then None
    else if IsRisingEdge(f, firstSamp, level, from) then Some(from)
    else EdgeFrom(f, firstSamp, level, from + 1)
  }

  /** The first rising edge of `f`, or `None` when `f` has none. */
  function FirstEdge(f: seq<int>, firstSamp: int, level: int): (r: Option<nat>)
    ensures r.Some? ==> IsFirstEdge(f, firstSamp, level, r.value)
    ensures r.None? <==> forall j :: 0 <= j < |f| ==> !IsRisingEdge(f, firstSamp, level, j)
  {
    EdgeFrom(f, firstSamp, level, 0)
  }

  /** The scan loop of the detector, step by step: `last` trails the current
      sample, the loop stops at the first index past the guard where the
      level is crossed upward, and when nothing is found `idx` is left at
      the last index. An empty waveform fails before the loop. */
  method ScanForEdge(f: seq<int>, firstSamp: int, level: int) returns (found: bool, idx: int)
    ensures found ==> IsFirstEdge(f, firstSamp, level, idx)
    ensures !found ==> forall j :: 0 <= j < |f| ==> !IsRisingEdge(f, firstSamp, level, j)
    ensures !found && |f| > 0 ==> idx == |f| - 1
    ensures found <==> FirstEdge(f, firstSamp, level).Some?
    ensures found ==> FirstEdge(f, firstSamp, level) == Some(idx as nat)
  {
    found := false;
    idx := -1;
    if |f| == 0 {
      return;
    }
    var last := f[0];
    var i := 0;
    while i < |f|
      invariant 0 <= i <= |f|
      invariant i == 0 ==> last == f[0] && idx == -1
      invariant i > 0 ==> last == f[i - 1] && idx == i - 1
      invariant forall j :: 0 <= j < i ==> !IsRisingEdge(f, firstSamp, level, j)
    {
      idx := i;
      var pt := f[i];
      if idx > firstSamp && pt > level && last <= level {
        found := true;
        assert IsFirstEdge(f, firstSamp, level, idx);
        var first := FirstEdge(f, firstSamp, level);
        if first.Some? {
          FirstEdgeUnique(f, firstSamp, level, idx, first.value);
        }
        return;
      }
      last := pt;
      i := i + 1;
    }
  }

  /** Sample at a Python index: a negative index counts from the end. */
  function At(f: seq<int>, i: int): int
    requires -|f| <= i < |f|
  {
    if i < 0 then f[|f| + i] else f[i]
  }

  /** The eight first differences read around a candidate edge, from
      `m4 = f[idx-3] - f[idx-4]` up to `p4 = f[idx+4] - f[idx+3]`. */
  datatype Slopes = Slopes(m4: int, m3: int, m2: int, m1: int, p1: int, p2: int, p3: int, p4: int)

  /** The window `idx-4 .. idx+4` must be readable with Python indexing. */
  predicate WindowFits(f: seq<int>, idx: int)
  {
    -|f| <= idx - 4 && idx + 4 < |f|
  }

  function WindowSlopes(f: seq<int>, idx: int): Slopes
    requires WindowFits(f, idx)
  {
    Slopes(At(f, idx - 3) - At(f, idx - 4),
           At(f, idx - 2) - At(f, idx - 3),
           At(f, idx - 1) - At(f, idx - 2),
           At(f, idx) - At(f, idx - 1),
           At(f, idx + 1) - At(f, idx),
           At(f, idx + 2) - At(f, idx + 1),
           At(f, idx + 3) - At(f, idx + 2),
           At(f, idx + 4) - At(f, idx + 3))
  }

  /** The third- and fourth-order terms of the local slope are disabled: they
      would be `m3 + p3` and `m4 - p4`, but the program fixes them at 0. They
      are kept as an explicit extension point with their weights. */
  const LocSlope3: int := 0
  const LocSlope4: int := 0

  /** Weighted local slope around the edge. */
  function LocalSlope(s: Slopes): real
  {
    (s.m1 + s.p1) as real + (s.m2 - s.p2) as real * 0.25
      + LocSlope3 as real * 0.125 + LocSlope4 as real * 0.0625
  }

  /** With the higher-order terms disabled, the local slope is
      `(f[idx+1] - f[idx-1]) + 0.25 * (f[idx-1] + f[idx+1] - f[idx-2] - f[idx+2])`:
      the centred difference plus a quarter of the curvature-like term. */
  lemma LocalSlopeClosedForm(f: seq<int>, idx: int)
    requires WindowFits(f, idx) && idx >= 2
    ensures LocalSlope(WindowSlopes(f, idx)) ==
            (f[idx + 1] - f[idx - 1]) as real
              + 0.25 * (f[idx - 1] + f[idx + 1] - f[idx - 2] - f[idx + 2]) as real
  {
  }

  /** The local slope reads only `idx-2 .. idx+2`: samples further out,
      which feed the disabled terms, do not affect it. */
  lemma LocalSlopeIgnoresOuter(f: seq<int>, g: seq<int>, idx: int)
    requires WindowFits(f, idx) && WindowFits(g, idx)
    requires At(f, idx - 2) == At(g, idx - 2) && At(f, idx - 1) == At(g, idx - 1)
    requires At(f, idx) == At(g, idx)
    requires At(f, idx + 1) == At(g, idx + 1) && At(f, idx + 2) == At(g, idx + 2)
    ensures LocalSlope(WindowSlopes(f, idx)) == LocalSlope(WindowSlopes(g, idx))
  {
  }

  /** Empirical calibration for the curvature of a sinusoid near its
      steepest crossing; specific to the simulated test waveform. */
  const CalibrationScale: real := 1.75

  /** Sub-sample correction `-(diff / slope) * 1.75`: the scaled linear
      interpolation step from the sample back to the level. */
  function Correction(diff: int, slope: real): (c: real)
    requires slope != 0.0
    ensures c * slope == -CalibrationScale * diff as real
    ensures diff < 0 ==> c != 0.0 && (c > 0.0 <==> slope > 0.0)
    ensures diff == 0 ==> c == 0.0
  {
    -((diff as real / slope) * CalibrationScale)
  }

  /** Outcome of one trial. `EdgeNotFound` and `InsufficientMargin` are the
      two ways the detector loses the trigger; `ZeroSlope` is the window
      whose weighted slope is 0, where the division has no value;
      `EmptySample` is a trial whose sampled waveform is empty, which the
      sampler rejects before the detector runs. */
  datatype TriggerResult =
    | Ok(idx: nat, corr: real)
    | EdgeNotFound
    | InsufficientMargin
    | ZeroSlope
    | EmptySample

  /** On 8-bit samples, a level outside [0, 254] never triggers: no sample
      exceeds a level of 255 or more, and no sample lies at or below a
      negative level. */
  lemma LevelOutsideRangeNeverTriggers(f: seq<int>, firstSamp: int, level: int)
    requires forall k :: 0 <= k < |f| ==> 0 <= f[k] <= 255
    requires level < 0 || level >= 255
    ensures FirstEdge(f, firstSamp, level).None?
    ensures !TriggerWaveRise(f, firstSamp, level).Ok?
  {
  }

  /** What the detector reports for the waveform `f`: `EdgeNotFound`
      exactly when `f` has no rising edge, `Ok` exactly when the first edge
      has four samples after it and a non-zero weighted slope, and then the
      first edge with the correction that solves the interpolation
      equation. */
  ghost predicate Reports(f: seq<int>, firstSamp: int, level: int, r: TriggerResult)
  {
    (r.EdgeNotFound? <==> forall j :: 0 <= j < |f| ==> !IsRisingEdge(f, firstSamp, level, j)) &&
    (r.Ok? <==> exists i :: IsFirstEdge(f, firstSamp, level, i) && i + 4 < |f| &&
                            LocalSlope(WindowSlopes(f, i)) != 0.0) &&
    (r.Ok? ==> IsFirstEdge(f, firstSamp, level, r.idx) && WindowFits(f, r.idx) &&
               r.corr * LocalSlope(WindowSlopes(f, r.idx)) == CalibrationScale * (f[r.idx] - level) as real)
  }

  /** Rising-edge trigger with sub-sample correction. */
  function TriggerWaveRise(f: seq<int>, firstSamp: int, level: int): (r: TriggerResult)
    ensures !r.EmptySample?
    ensures r.EdgeNotFound? <==> forall j :: 0 <= j < |f| ==> !IsRisingEdge(f, firstSamp, level, j)
    ensures r.InsufficientMargin? <==> exists i :: IsFirstEdge(f, firstSamp, level, i) && i + 4 >= |f|
    ensures r.ZeroSlope? <==>
              exists i :: IsFirstEdge(f, firstSamp, level, i) && WindowFits(f, i) &&
                          LocalSlope(WindowSlopes(f, i)) == 0.0
    ensures r.Ok? <==>
              exists i :: IsFirstEdge(f, firstSamp, level, i) && i + 4 < |f| &&
                          LocalSlope(WindowSlopes(f, i)) != 0.0
    ensures r.Ok? ==>
              IsFirstEdge(f, firstSamp, level, r.idx) && WindowFits(f, r.idx) &&
              var slope := LocalSlope(WindowSlopes(f, r.idx));
              slope != 0.0 &&
              r.corr * slope == CalibrationScale * (f[r.idx] - level) as real &&
              r.corr != 0.0 && (r.corr > 0.0 <==> slope > 0.0)
    ensures Reports(f, firstSamp, level, r)
    ensures r.Ok? && firstSamp >= 3 ==> r.idx >= 4
    ensures |f| <= firstSamp + 5 ==> !r.Ok?
  {
    match FirstEdge(f, firstSamp, level)
    case None => EdgeNotFound
    case Some(idx) =>
      if idx + 4 >= |f| then InsufficientMargin
      else
        var slope := LocalSlope(WindowSlopes(f, idx));
        if slope == 0.0 then ZeroSlope
        else Ok(idx, Correction(level - f[idx], slope))
  }
}
